=== FILE: README.md ===
# Skygear event tracking (Android): a Dafny model of the event writer

This project models the write path of the Skygear event-tracking SDK for Android:

- **Tracker.** The tracking call builds an event record. It sanitises the caller's
  attributes, then merges them with the environment attributes and the reserved fields
  `_event_raw`, `_user_id` and `_tracked_at`.
- **Writer.** The writer keeps records in a bounded FIFO queue of at most 1000 records
  and drops the oldest first.
  - After every write it persists the whole queue as a JSON snapshot.
  - It uploads the oldest 20 records at a time in three cases: after each persisted write
    that leaves 10 or more records, on a timer tick, and at startup. So a failed batch is
    retried on each later persisted write.
  - It removes a batch only after that batch's upload returns normally.
- **Locale tags.** A small utility turns a Java locale triple (language, region, variant)
  into a BCP 47 language tag, as section 2.1 of RFC 5646 describes.

The writer runs every work item on one single-thread executor, in submission order. So
the writer is modelled as a sequential state machine, `Writer.State`, with two parts:
- the in-memory queue;
- the last snapshot on disk, `Writer.Disk`.

Each work item is a pure function from one state to the next:
- `DoWrite` for a producer write;
- `Tick` for a timer tick;
- `Startup` for the first work item.

`Writer.Run` folds a list of commands. Two things are boolean oracles: whether the atomic
snapshot write succeeds, and whether the HTTP upload returns normally.

Modules:
- `Wrappers` holds `Option`.
- `Json` is the encoded side.
- `Events` holds the attribute value union and the opaque date formatter.
- `Serializer` holds the tagged encoding.
- `EventQueue` holds the constants, eviction and the upload batch.
- `Writer` holds restore, persist, flush, the triggers and the work items.
- `Strings` holds split and join.
- `LocaleTags` holds the BCP 47 compat conversion and the primary locale.
- `Tracker` holds event assembly.

Each Java `Number` keeps its box kind (`Integer`, `Long`, `Double`, ...) and whether it is
finite. This matters because `toJSONObject` (Writer.java:167-168) throws in two cases:
- the `(double) value` cast throws `ClassCastException` unless the box is a `Double`;
- `JSONObject.put` throws `JSONException` for NaN and the infinities.

A batch holding such a number makes `serializeEvents` throw. Persist then fails, or the
flush throws before any upload.

The tracker converts every number to a double (SkygearTracker.java:83-85). So a tracked
record serialises whenever the caller's numbers are finite (`Tracker.TrackedEventRoundTrip`).
The tracker keeps NaN and infinite numbers, though (`Tracker.NonFiniteAttributeBlocksEncoding`).
One such record blocks the writer until it is evicted:
- every later write fails to persist and never reaches the threshold flush
  (Writer.java:194-195, `Writer.UnencodableRecordBlocksWrites`);
- while the record is among the oldest 20, every tick's flush throws
  (`Writer.UnencodableRecordBlocksTicks`).

Behaviour of the code worth knowing:
- **Partial restore.** Restore keeps every record decoded before the first element that is
  not an object (Writer.java:102-107, `Writer.RestoreKeepsPrefix`). Attribute shapes it
  does not recognise drop that attribute only (Writer.java:144-155).
- **No empty check in `flush`.** `flush` has no check of its own for an empty queue
  (Writer.java:255-265). Only the two triggers keep an empty queue from being uploaded
  (Writer.java:237 and 244).
- **Local time with a literal `Z`.** The date pattern writes local time followed by a
  literal `Z` (Writer.java:55). The model keeps the formatter opaque.
- **Nulls lost on restore.** A record keeps Java nulls in memory, for example `_user_id`
  when nobody is logged in (SkygearTracker.java:51, 61-66). The encoder omits them
  (Writer.java:165-173), so a restored record lacks those keys
  (`Tracker.TrackedEventRoundTrip`, `Writer.PersistRestoreKept`).
- **Records leave the queue only by eviction or upload.** A record leaves the queue only by
  eviction or inside a batch whose upload returned normally (`Writer.Execute`). A run in
  which no upload succeeds ends with exactly the newest 1000 records of everything written
  (`Writer.RunWithoutDeliveryKeepsNewest`).

## Model

| member | source | states |
|---|---|---|
| Serializer.ParseDate | lib/src/main/java/io/skygear/skygear/eventtracking/Writer.java:117-129 | a date is recognised only in an object whose `$type` is the string "date" and whose `$date` is a string, and then it is exactly the formatter's parse of that string (a failed parse gives none) |
| Serializer.SerializeDate | lib/src/main/java/io/skygear/skygear/eventtracking/Writer.java:131-136 | a date becomes an object with exactly the keys `$type` and `$date`, holding "date" and the formatted date |
| Serializer.DateRoundTrip | lib/src/main/java/io/skygear/skygear/eventtracking/Writer.java:117-136 | a serialised date `{"$type":"date","$date":fmt(d)}` parses back to the same date when the formatter's parse undoes its format |
| Serializer.EncodeEvent | lib/src/main/java/io/skygear/skygear/eventtracking/Writer.java:160-176 | encoding fails exactly when some number is not a finite Double; otherwise the keys are exactly those holding a boolean, number, string or date (null and other values are omitted) and each is that value's encoding |
| Serializer.EncodeValue | lib/src/main/java/io/skygear/skygear/eventtracking/Writer.java:165-173 | booleans and strings pass through, numbers are written as their double value, dates as the tagged date object |
| Serializer.DecodeValue | lib/src/main/java/io/skygear/skygear/eventtracking/Writer.java:143-155 | booleans and strings pass through and numbers become doubles; an object decodes exactly when it is a tagged date that parses, to that date; JSON null and arrays never decode |
| Serializer.DecodeEvent | lib/src/main/java/io/skygear/skygear/eventtracking/Writer.java:138-158 | a key is kept exactly when its value decodes, and holds the decoded value; unknown shapes drop only that key; booleans, numbers and strings are never dropped |
| Serializer.ValueRoundTrip | lib/src/main/java/io/skygear/skygear/eventtracking/Writer.java:143-173 | each serialisable value with a finite Double number decodes back to itself |
| Serializer.EventRoundTrip | lib/src/main/java/io/skygear/skygear/eventtracking/Writer.java:138-176 | decode(encode(e)) is e restricted to its serialisable entries, for every record whose numbers are finite doubles |
| Serializer.CanonicalRoundTrip | lib/src/main/java/io/skygear/skygear/eventtracking/Writer.java:138-176 | decode(encode(e)) == e for records of booleans, finite doubles, strings and dates |
| Serializer.EncodeAll | lib/src/main/java/io/skygear/skygear/eventtracking/Writer.java:178-186 | the array holds one encoded object per record, in queue order, and fails exactly when some record fails |
| Serializer.SerializeEvents | lib/src/main/java/io/skygear/skygear/eventtracking/Writer.java:178-189 | the document has the single key "events", whose array is the encoded records in queue order; it fails exactly when some record fails |
| Serializer.DecodePrefix | lib/src/main/java/io/skygear/skygear/eventtracking/Writer.java:101-108 | records are decoded in file order up to the first element that is not an object; the result is complete exactly when every element is an object |
| Serializer.SerializeDecode | lib/src/main/java/io/skygear/skygear/eventtracking/Writer.java:178-189 | reading back a serialised list gives every record, in order, restricted to its serialisable entries |
| Serializer.SerializeDecodeCanonical | lib/src/main/java/io/skygear/skygear/eventtracking/Writer.java:178-189 | reading back a serialised list of boolean/double/string/date records gives exactly that list |
| EventQueue.DropIfNeeded | lib/src/main/java/io/skygear/skygear/eventtracking/Writer.java:207-215 | the result is the suffix of the queue of length min(size, 1000): the newest 1000 records in order when oversized, the queue itself otherwise |
| EventQueue.AddAndDrop | lib/src/main/java/io/skygear/skygear/eventtracking/Writer.java:201-205 | the new record is always the last element; at most 1000 records remain, as a suffix of queue + [e]; below capacity nothing is dropped |
| EventQueue.CalculateEndIndex | lib/src/main/java/io/skygear/skygear/eventtracking/Writer.java:231-234 | the end index is the smaller of the size and the limit |
| EventQueue.Batch | lib/src/main/java/io/skygear/skygear/eventtracking/Writer.java:256-257 | the upload batch is the prefix of length min(size, 20) |
| EventQueue.DropAfterAppend | lib/src/main/java/io/skygear/skygear/eventtracking/Writer.java:201-215 | evicting before an append and again after it equals evicting once after the append |
| EventQueue.AppendAllKeepsNewest | lib/src/main/java/io/skygear/skygear/eventtracking/Writer.java:201-215 | after any series of writes the queue is exactly the newest 1000 records of everything written, in order (FIFO eviction) |
| Writer.DoRestore | lib/src/main/java/io/skygear/skygear/eventtracking/Writer.java:97-115 | restore only appends, and what it appends are the snapshot's records decoded in file order; a missing file leaves the queue as is with no error log; an unreadable file, or a document without an "events" array, logs and appends nothing; for an "events" array, an error is logged exactly when some element is not an object, restore stops at the first such element, and otherwise every element is restored |
| Writer.RestoreKeepsPrefix | lib/src/main/java/io/skygear/skygear/eventtracking/Writer.java:101-114 | when element i is not an object, the records 0..i-1 are kept and the error is logged: a partial restore, not an empty one |
| Writer.Persist | lib/src/main/java/io/skygear/skygear/eventtracking/Writer.java:217-229 | persist succeeds exactly when the write succeeds and every record serialises; the stored snapshot is then serializeEvents of the queue |
| Writer.PersistRestore | lib/src/main/java/io/skygear/skygear/eventtracking/Writer.java:217-229 | crash recovery, for records of booleans, finite doubles, strings and dates: restoring the snapshot just written gives back the queue, in order, with no error |
| Writer.PersistRestoreKept | lib/src/main/java/io/skygear/skygear/eventtracking/Writer.java:217-229 | crash recovery for any serialisable queue (anonymous users' records with a null `_user_id` included): restoring the snapshot just written gives each record back in order, without the entries the encoder omits, with no error |
| Writer.Flush | lib/src/main/java/io/skygear/skygear/eventtracking/Writer.java:255-265 | the body sent is serializeEvents of the prefix batch; on success the queue is batch + result, otherwise it is unchanged and the exception propagates |
| Writer.FlushRemovesSentPrefix | lib/src/main/java/io/skygear/skygear/eventtracking/Writer.java:255-265 | for records of booleans, finite doubles, strings and dates: the uploaded body decodes to the batch, and a successful flush removes exactly those records from the head |
| Writer.FlushSendsKeptBatch | lib/src/main/java/io/skygear/skygear/eventtracking/Writer.java:255-265 | for any serialisable batch: the uploaded body decodes to the batch's records in order, without the entries the encoder omits, and a successful flush removes exactly the batch from the head |
| Writer.FlushIfEnough | lib/src/main/java/io/skygear/skygear/eventtracking/Writer.java:236-241 | nothing is uploaded below 10 records; at 10 or more it is the plain flush, errors included |
| Writer.FlushIfHasSomeEvents | lib/src/main/java/io/skygear/skygear/eventtracking/Writer.java:243-253 | an empty queue is never uploaded; a non-empty one is flushed, errors are swallowed, and the queue only loses a head |
| Writer.DoWrite | lib/src/main/java/io/skygear/skygear/eventtracking/Writer.java:191-199 | add-and-drop, then persist the post-drop queue, then the threshold flush; a failed persist keeps the record in memory, leaves the old snapshot and uploads nothing |
| Writer.WriteSnapshotOutlivesFlush | lib/src/main/java/io/skygear/skygear/eventtracking/Writer.java:191-199 | for records of booleans, finite doubles, strings and dates: the snapshot left by a write restores to the post-drop queue, including records the same write then uploaded, since there is no re-persist |
| Writer.WriteSnapshotRestoresKept | lib/src/main/java/io/skygear/skygear/eventtracking/Writer.java:191-199 | for any serialisable post-drop queue: the write's snapshot restores, with no error, to that queue's records without the omitted entries, whatever the same write then uploaded |
| Writer.ThresholdTriggersUpload | lib/src/main/java/io/skygear/skygear/eventtracking/Writer.java:236-241 | a write that brings a serialisable queue to 10 records, with the snapshot written, attempts an upload in the same work item |
| Writer.Startup | lib/src/main/java/io/skygear/skygear/eventtracking/Writer.java:60-67 | restore, then drop, then flush: the post-drop queue loses records only as a successfully uploaded batch, a successful upload removes exactly that batch, and a non-empty serialisable queue is uploaded as its first 20 records; no file means an empty queue and no upload |
| Writer.Tick | lib/src/main/java/io/skygear/skygear/eventtracking/Writer.java:69-79 | a timer tick only requests a flush: the snapshot is untouched, the queue loses records only as a successfully uploaded batch, a successful upload removes exactly that batch, a non-empty serialisable queue is uploaded, and an empty queue uploads nothing |
| Writer.Execute | lib/src/main/java/io/skygear/skygear/eventtracking/Writer.java:88-95 | a work item keeps the 1000-record bound, any upload carries 1 to 20 records, records leave the queue only by eviction or inside a batch whose upload returned normally, and a successful upload removes exactly that batch; a persisted serialisable write stores the post-drop queue and, at 10 or more records, uploads its first 20; a tick uploads the first 20 records of a non-empty serialisable queue and never touches the snapshot; a write whose persist fails only appends and evicts |
| Writer.Run | lib/src/main/java/io/skygear/skygear/eventtracking/Writer.java:60-95 | each work item uploads at most once, and ticks alone on an empty queue change nothing (submission order is `Writer.RunSnoc`) |
| Writer.RunSnoc | lib/src/main/java/io/skygear/skygear/eventtracking/Writer.java:60-95 | work items run one after another in submission order: a run of one more command is the shorter run followed by that command, and its uploads are the shorter run's followed by that command's |
| Writer.RunAppend | lib/src/main/java/io/skygear/skygear/eventtracking/Writer.java:60-95 | running one list of work items and then another is the same as running their concatenation: the second starts from the state the first left, and the uploads are the first's followed by the second's |
| Writer.RunKeepsBound | lib/src/main/java/io/skygear/skygear/eventtracking/Writer.java:207-215 | the queue bound holds after every work item of any run |
| Writer.RunSendsProperBatches | lib/src/main/java/io/skygear/skygear/eventtracking/Writer.java:231-257 | every upload of any run carries between 1 and 20 records |
| Writer.StartupThenRunKeepsBound | lib/src/main/java/io/skygear/skygear/eventtracking/Writer.java:60-67 | from startup on, every state of the writer has at most 1000 records |
| Writer.RunWithoutDelivery | lib/src/main/java/io/skygear/skygear/eventtracking/Writer.java:201-265 | when no upload succeeds, the queue ends as the written records appended in order, each append followed by a drop |
| Writer.RunWithoutDeliveryKeepsNewest | lib/src/main/java/io/skygear/skygear/eventtracking/Writer.java:201-265 | when no upload succeeds, a bounded queue ends as exactly the newest 1000 of its records and the written ones |
| Writer.UnencodableRecordBlocksWrites | lib/src/main/java/io/skygear/skygear/eventtracking/Writer.java:191-199 | while a record that cannot be serialised is queued (and nothing is evicted), each write keeps the old snapshot and uploads nothing |
| Writer.UnencodableRecordBlocksTicks | lib/src/main/java/io/skygear/skygear/eventtracking/Writer.java:243-265 | while such a record is among the oldest 20, a tick uploads nothing and changes nothing |
| Strings.SplitJoin | lib/src/main/java/io/skygear/skygear/eventtracking/SkygearTracker.java:109-111 | joining comma-free parts with "," and splitting again gives the parts back |
| LocaleTags.NormalizeLanguage | lib/src/main/java/io/skygear/skygear/eventtracking/Utils.java:122-131 | an empty language, or one that is not 2-8 ASCII letters, becomes "und"; iw, in and ji become he, id and yi; every other valid language is kept as given |
| LocaleTags.Normalize | lib/src/main/java/io/skygear/skygear/eventtracking/Utils.java:114-141 | no/NO/NY becomes nn/NO with no variant; a region is kept exactly when it is 2 letters or 3 digits, and a variant exactly when it is 5-8 alphanumerics or a digit and 3 alphanumerics |
| LocaleTags.ToLanguageTag | lib/src/main/java/io/skygear/skygear/eventtracking/Utils.java:108-152 | the tag is never empty, its first subtag is 2-8 letters, and no/NO/NY gives exactly "nn-NO" |
| LocaleTags.Format | lib/src/main/java/io/skygear/skygear/eventtracking/Utils.java:143-151 | the tag starts with the language, is exactly the language when region and variant are empty, and each non-empty subtag adds one "-" plus itself (its split back into subtags is `LocaleTags.FormatSplits`) |
| LocaleTags.FormatParses | lib/src/main/java/io/skygear/skygear/eventtracking/Utils.java:143-151 | joining well-formed subtags with "-" produces a tag that parses back to the same subtags |
| LocaleTags.ToLanguageTagParses | lib/src/main/java/io/skygear/skygear/eventtracking/Utils.java:143-151 | the compat tag has the form language["-"region]["-"variant] and reads back as exactly the kept subtags |
| LocaleTags.ToLanguageTagHasNoComma | lib/src/main/java/io/skygear/skygear/eventtracking/Utils.java:143-151 | a compat tag contains no comma |
| LocaleTags.DeviceLocale | lib/src/main/java/io/skygear/skygear/eventtracking/Utils.java:86-92 | the primary locale is the first tag, or null for an empty list |
| Tracker.Sanitize | lib/src/main/java/io/skygear/skygear/eventtracking/SkygearTracker.java:73-91 | null gives null; otherwise a key is kept exactly when its value is a Boolean, Number or String, numbers become doubles and other values are unchanged |
| Tracker.CurrentUserId | lib/src/main/java/io/skygear/skygear/eventtracking/SkygearTracker.java:61-66 | the current user's id, or null exactly when there is no current user |
| Tracker.Track | lib/src/main/java/io/skygear/skygear/eventtracking/SkygearTracker.java:39-55 | a null name writes nothing; otherwise the keys are the sanitised user keys, environment keys and the three reserved keys; reserved fields beat the environment, which beats user attributes |
| Tracker.LocaleAttributes | lib/src/main/java/io/skygear/skygear/eventtracking/SkygearTracker.java:104-105 | the locale entries are `_device_locales` and `_device_locale`; an empty list gives "" and null |
| Tracker.FormatTags | lib/src/main/java/io/skygear/skygear/eventtracking/SkygearTracker.java:109-111 | an empty list gives ""; a list of comma-free tags is the string that splits at "," back into that list |
| Tracker.LocaleAttributesRoundTrip | lib/src/main/java/io/skygear/skygear/eventtracking/SkygearTracker.java:109-111 | `_device_locales` splits at "," back into the tag list in order, and `_device_locale` is its first element |
| Tracker.CompatTagsSplit | lib/src/main/java/io/skygear/skygear/eventtracking/SkygearTracker.java:104 | a list of compat tags joined with "," splits back into the same list |
| Tracker.TrackedEventRoundTrip | lib/src/main/java/io/skygear/skygear/eventtracking/SkygearTracker.java:44-53 | a tracked record whose caller numbers are finite always serialises, reads back as itself minus null entries, and keeps `_user_id` only when a user was logged in |
| Tracker.NonFiniteAttributeBlocksEncoding | lib/src/main/java/io/skygear/skygear/eventtracking/SkygearTracker.java:77-90 | a NaN or infinite caller number survives sanitising and makes the tracked record impossible to serialise |

## Left out

- HTTP upload (`upload`, Writer.java:267-296): network I/O, so it is an `uploadOk` oracle. `getInputStream` (Writer.java:286) throws for a status of 400 or above, so only a round trip with a status below 400 counts as success. Server rejections throw, and the batch is kept and retried.
- `AtomicFile` writing and `readFully`: file I/O. Persist is "snapshot := serialised queue" or a failure oracle. A read error or bytes that are not a JSON object are `Disk.Unreadable`. The byte helpers `fromBytesTOJSONObject`, `fromJSONObjectToBytes`, `transferTo` and `fromUriToURL` are not part of this model.
- The executor and the 30-second timer: this is concurrency plumbing. Work items run one at a time, in order, as `Writer.Run` over commands. Where timer ticks fall between writes is up to the command list.
- `SimpleDateFormat`: it depends on the device's time zone and locale. It stays an opaque `DateFormat`, and date round trips assume `ParsesBack` (parse undoes format).
- Serializer.ParseDate: Android's `getString` turns a non-string `$date` into text before parsing. The model treats any non-string `$date` as unparsable. The date pattern cannot match the text of a number, boolean, object or array, so nothing is lost.
- Floating point: a finite number carries an exact integer amount. `doubleValue()` is modelled as exact, so rounding of large longs is not modelled. Neither is a finite `BigDecimal` or `BigInteger` beyond the double range turning infinite. NaN and the infinities are the `NonFinite` amount.
- A null key in the caller's attribute map: it is not modelled (keys are strings).
- Logging: only whether restore logs an error is modelled.
- Android environment getters, `getDeviceLocales`, the SDK dispatch to `Locale.toLanguageTag` and `populateEnvironmentAttributes` are platform calls. The environment map is an input. Only its two locale entries are modelled, by `Tracker.LocaleAttributes`.
- `buildEndpoint` (Uri library) and the `new Date()` clock read: the endpoint is not modelled, and the time is a parameter of `Tracker.Track`.
- `MainActivity`: it is UI only.

=== FILE: event_queue.dfy ===
/**
 The in-memory event buffer of the writer: a FIFO sequence bounded by
 `MaxLength`, with drop-oldest eviction and a prefix batch for upload.
 */
module EventQueue {
  import opened Events

  const MaxLength: nat := 1000
  const FlushLimit: nat := 10
  const UploadLimit: nat := 20

  predicate IsSuffix<T(==)>(s: seq<T>, t: seq<T>)
  {
    |s| <= |t| && s == t[|t| - |s|..]
  }

  lemma SuffixTransitive<T>(a: seq<T>, b: seq<T>, c: seq<T>)
    requires IsSuffix(a, b) && IsSuffix(b, c)
    ensures IsSuffix(a, c)
  {
  }

  /** Keeps the newest `MaxLength` records when the queue has grown past the bound. */
  function DropIfNeeded(q: seq<Event>): (r: seq<Event>)
    ensures |r| == if |q| > MaxLength then MaxLength else |q|
    ensures IsSuffix(r, q)
  {
    if |q| > MaxLength then q[|q| - MaxLength..] else q
  }

  /** Appends at the tail, then evicts from the head. */
  function AddAndDrop(q: seq<Event>, e: Event): (r: seq<Event>)
    ensures 0 < |r| <= MaxLength
    ensures r[|r| - 1] == e
    ensures IsSuffix(r, q + [e])
    ensures |q| < MaxLength ==> r == q + [e]
  {
    DropIfNeeded(q + [e])
  }

  /** `Math.min(size, limit)`. */
  function CalculateEndIndex(size: nat, limit: nat): (n: nat)
    ensures n <= size && n <= limit
    ensures n == size || n == limit
  {
    if size < limit then size else limit
  }

  /** The records one flush uploads: the oldest ones, at most `UploadLimit` of them. */
  function Batch(q: seq<Event>): (b: seq<Event>)
    ensures |b| == CalculateEndIndex(|q|, UploadLimit)
    ensures b == q[..|b|]
  {
    q[..CalculateEndIndex(|q|, UploadLimit)]
  }

  /** A series of producer writes, each one appended and followed by eviction. */
  function AppendAll(q: seq<Event>, es: seq<Event>): seq<Event>
    decreases |es|
  {
    if |es| == 0 then q else AppendAll(AddAndDrop(q, es[0]), es[1..])
  }

  /** Evicting after every append is the same as evicting once after all of them. */
  lemma DropAfterAppend(q: seq<Event>, e: Event)
    ensures AddAndDrop(DropIfNeeded(q), e) == DropIfNeeded(q + [e])
  {
  }

  /**
   FIFO eviction over a whole session: after any series of writes the queue
   holds exactly the newest `MaxLength` records of everything written, in order.
   */
  lemma {:induction false} AppendAllKeepsNewest(q: seq<Event>, es: seq<Event>)
    ensures AppendAll(DropIfNeeded(q), es) == DropIfNeeded(q + es)
    decreases |es|
  {
    if |es| == 0 {
      assert q + es == q;
      assert DropIfNeeded(DropIfNeeded(q)) == DropIfNeeded(q);
    } else {
      DropAfterAppend(q, es[0]);
      AppendAllKeepsNewest(q + [es[0]], es[1..]);
      assert q + [es[0]] + es[1..] == q + es;
    }
  }
}

=== FILE: events.dfy ===
/**
 Event records as the tracker and the writer hold them in memory: a map from
 attribute name to a dynamically typed Java value.
 */
module Events {
  import opened Wrappers

  /** The box behind a `java.lang.Number`. Only a `Double` survives the writer's `(double)` cast. */
  datatype NumKind = IntegerBox | LongBox | FloatBox | DoubleBox | OtherNumberBox

  /**
   The value of a number as a double sees it: an exact finite amount, or NaN or
   an infinity (`Double.NaN`, an infinite `Float`, ...).
   */
  datatype Amount = Finite(n: int) | NonFinite

  /** A `java.util.Date`: milliseconds since the epoch. */
  datatype Date = Date(millis: int)

  /**
   The attribute values an event can carry. `Null` is a Java null (for example
   `_user_id` when nobody is logged in); `Other` is any object of a type the
   tracker does not recognise.
   */
  datatype Value =
    | Bool(b: bool)
    | Num(kind: NumKind, amount: Amount)
    | Str(s: string)
    | Time(date: Date)
    | Null
    | Other

  type Event = map<string, Value>

  /**
   The writer's date formatter, kept opaque: it depends on the default time zone
   and locale of the device. `parse` answers `None` where `SimpleDateFormat.parse`
   throws.
   */
  datatype DateFormat = DateFormat(format: Date -> string, parse: string -> Option<Date>)

  /** The assumption under which dates survive a snapshot: parsing undoes formatting. */
  ghost predicate ParsesBack(df: DateFormat)
  {
    forall d :: df.parse(df.format(d)) == Some(d)
  }

  /** The value shapes a decoded record holds: boolean, finite double, string or date. */
  predicate Canonical(v: Value)
  {
    v.Bool? || (v.Num? && v.kind == DoubleBox && v.amount.Finite?) || v.Str? || v.Time?
  }

  predicate CanonicalEvent(e: Event)
  {
    forall k :: k in e ==> Canonical(e[k])
  }

  predicate AllCanonical(q: seq<Event>)
  {
    forall i :: 0 <= i < |q| ==> CanonicalEvent(q[i])
  }
}

=== FILE: json.dfy ===
/**
 The JSON values the event writer builds with org.json and reads back from its
 snapshot file. Numbers are carried as exact integers: no arithmetic is done on
 them anywhere in the writer, so their floating-point width does not matter here.
 */
module Json {

  datatype JsonValue =
    | JNull
    | JBool(b: bool)
    | JNum(n: int)
    | JStr(s: string)
    | JArray(items: seq<JsonValue>)
    | JObject(fields: map<string, JsonValue>)

  /** A JSON object: attribute name to value, key order immaterial. */
  type JsonObject = map<string, JsonValue>
}

=== FILE: locale_tags.dfy ===
/**
 The locale helpers of the tracker's utility class: the pre-Lollipop fallback
 that turns a (language, region, variant) triple into a BCP 47 language tag
 following section 2.1 of RFC 5646, and the choice of the device's primary
 locale. Java's `\p{Alpha}`, `\p{Digit}` and `\p{Alnum}` are ASCII-only by
 default, and `String.matches` must match the whole string.
 */
module LocaleTags {
  import opened Wrappers
  import opened Strings

  const Separator: char := '-'

  predicate IsAlpha(c: char) { 'a' <= c <= 'z' || 'A' <= c <= 'Z' }
  predicate IsDigit(c: char) { '0' <= c <= '9' }
  predicate IsAlnum(c: char) { IsAlpha(c) || IsDigit(c) }

  predicate AllAlpha(s: string) { forall i :: 0 <= i < |s| ==> IsAlpha(s[i]) }
  predicate AllDigit(s: string) { forall i :: 0 <= i < |s| ==> IsDigit(s[i]) }
  predicate AllAlnum(s: string) { forall i :: 0 <= i < |s| ==> IsAlnum(s[i]) }

  /** `\p{Alpha}{2,8}`: the language subtag of section 2.2.1 of RFC 5646. */
  predicate LanguagePattern(s: string) { 2 <= |s| <= 8 && AllAlpha(s) }

  /** `\p{Alpha}{2}|\p{Digit}{3}`: the region subtag of section 2.2.4 of RFC 5646. */
  predicate RegionPattern(s: string) { (|s| == 2 && AllAlpha(s)) || (|s| == 3 && AllDigit(s)) }

  /** `\p{Alnum}{5,8}|\p{Digit}\p{Alnum}{3}`: the variant subtag of section 2.2.5 of RFC 5646. */
  predicate VariantPattern(s: string)
  {
    (5 <= |s| <= 8 && AllAlnum(s)) || (|s| == 4 && IsDigit(s[0]) && AllAlnum(s[1..]))
  }

  /** Norwegian Nynorsk as old Java locales spell it; "NY" is no valid variant. */
  predicate IsNynorsk(language: string, region: string, variant: string)
  {
    language == "no" && region == "NO" && variant == "NY"
  }

  datatype Subtags = Subtags(language: string, region: string, variant: string)

  /** Ill-formed languages become "und"; three deprecated ISO 639 codes get their current ones. */
  function NormalizeLanguage(language: string): (r: string)
    ensures LanguagePattern(r)
    ensures !LanguagePattern(language) ==> r == "und"
    ensures LanguagePattern(language) && language != "iw" && language != "in" && language != "ji" ==> r == language
    ensures language == "iw" ==> r == "he"
    ensures language == "in" ==> r == "id"
    ensures language == "ji" ==> r == "yi"
  {
    if |language| == 0 || !LanguagePattern(language) then "und"
    else if language == "iw" then "he"
    else if language == "in" then "id"
    else if language == "ji" then "yi"
    else language
  }

  /** The subtags the compat conversion keeps: a region or variant that does not match its pattern is cleared. */
  function Normalize(language: string, region: string, variant: string): (r: Subtags)
    ensures LanguagePattern(r.language)
    ensures r.region == "" || RegionPattern(r.region)
    ensures r.variant == "" || VariantPattern(r.variant)
    ensures IsNynorsk(language, region, variant) ==> r == Subtags("nn", "NO", "")
    ensures !IsNynorsk(language, region, variant) ==>
      && r.language == NormalizeLanguage(language)
      && (RegionPattern(region) ==> r.region == region)
      && (!RegionPattern(region) ==> r.region == "")
      && (VariantPattern(variant) ==> r.variant == variant)
      && (!VariantPattern(variant) ==> r.variant == "")
  {
    var nynorsk := IsNynorsk(language, region, variant);
    var l := if nynorsk then "nn" else language;
    var g := if nynorsk then "NO" else region;
    var v := if nynorsk then "" else variant;
    Subtags(NormalizeLanguage(l),
            if RegionPattern(g) then g else "",
            if VariantPattern(v) then v else "")
  }

  /** Language, then "-" and the region if there is one, then "-" and the variant if there is one. */
  function Format(t: Subtags): (r: string)
    ensures |t.language| <= |r| && r[..|t.language|] == t.language
    ensures t.region == "" && t.variant == "" ==> r == t.language
    ensures |r| == |t.language| + (if t.region != "" then 1 + |t.region| else 0)
                                + (if t.variant != "" then 1 + |t.variant| else 0)
  {
    t.language
      + (if t.region != "" then [Separator] + t.region else "")
      + (if t.variant != "" then [Separator] + t.variant else "")
  }

  function ToLanguageTag(language: string, region: string, variant: string): (tag: string)
    ensures |tag| >= 2
    ensures LanguagePattern(Split(tag, Separator)[0])
    ensures IsNynorsk(language, region, variant) ==> tag == "nn-NO"
  {
    var t := Normalize(language, region, variant);
    FormatParses(t);
    Format(t)
  }

  /**
   Reads a tag of the shape `language["-"region]["-"variant]` back into its
   subtags, telling region from variant by shape alone.
   */
  function Parse(tag: string): Option<Subtags>
  {
    var parts := Split(tag, Separator);
    if !LanguagePattern(parts[0]) then
      None
    else
      var rest := parts[1..];
      var region := if |rest| > 0 && RegionPattern(rest[0]) then rest[0] else "";
      var tail := if region != "" then rest[1..] else rest;
      if |tail| == 0 then Some(Subtags(parts[0], region, ""))
      else if |tail| == 1 && VariantPattern(tail[0]) then Some(Subtags(parts[0], region, tail[0]))
      else None
  }

  lemma AlnumHasNoSeparator(s: string, c: char)
    requires AllAlnum(s) && !IsAlnum(c)
    ensures c !in s
  {
  }

  predicate WellFormedSubtags(t: Subtags)
  {
    && LanguagePattern(t.language)
    && (t.region == "" || RegionPattern(t.region))
    && (t.variant == "" || VariantPattern(t.variant))
  }

  function SubtagList(t: Subtags): seq<string>
  {
    [t.language] + (if t.region != "" then [t.region] else []) + (if t.variant != "" then [t.variant] else [])
  }

  lemma SubtagsAreAlnum(t: Subtags)
    requires WellFormedSubtags(t)
    ensures forall i :: 0 <= i < |SubtagList(t)| ==> AllAlnum(SubtagList(t)[i])
  {

  }

  lemma FormatIsJoin(t: Subtags)
    ensures Format(t) == Join(SubtagList(t), Separator)
  {
    var l, g, v := t.language, t.region, t.variant;
    if g != "" && v != "" {
      assert SubtagList(t) == [l, g, v];
      assert Join([g, v], Separator) == g + [Separator] + v;
      assert Join([l, g, v], Separator) == l + [Separator] + Join([g, v], Separator);
    } else if g != "" {
      assert SubtagList(t) == [l, g];
      assert Join([l, g], Separator) == l + [Separator] + Join([g], Separator);
    } else if v != "" {
      assert SubtagList(t) == [l, v];
      assert Join([l, v], Separator) == l + [Separator] + Join([v], Separator);
    } else {
      assert SubtagList(t) == [l];
    }
  }

  /** A formatted tag splits at "-" into exactly its kept subtags. */
  lemma FormatSplits(t: Subtags)
    requires WellFormedSubtags(t)
    ensures Split(Format(t), Separator) == SubtagList(t)
  {
    var parts := SubtagList(t);
    SubtagsAreAlnum(t);
    forall i | 0 <= i < |parts| ensures Separator !in parts[i] {
      AlnumHasNoSeparator(parts[i], Separator);
    }
    FormatIsJoin(t);
    SplitJoin(parts, Separator);
  }

  lemma FormatParses(t: Subtags)
    requires WellFormedSubtags(t)
    ensures Parse(Format(t)) == Some(t)
    ensures |Format(t)| >= 2
    ensures Split(Format(t), Separator)[0] == t.language
  {
    FormatSplits(t);
  }

  /** The compat tag is well formed and reads back as exactly the subtags it kept. */
  lemma ToLanguageTagParses(language: string, region: string, variant: string)
    ensures Parse(ToLanguageTag(language, region, variant)) == Some(Normalize(language, region, variant))
  {
    FormatParses(Normalize(language, region, variant));
  }

  /** Compat tags hold only ASCII letters, digits and "-", so a comma-joined list of them splits cleanly. */
  lemma ToLanguageTagHasNoComma(language: string, region: string, variant: string)
    ensures ',' !in ToLanguageTag(language, region, variant)
  {

  }

  /** The device's primary locale: the first tag of the list, or null for an empty list. */
  function DeviceLocale(tags: seq<string>): (r: Option<string>)
    ensures r.Some? <==> |tags| >= 1
    ensures r.Some? ==> r.value == tags[0]
  {
    if |tags| >= 1 then Some(tags[0]) else None
  }
}

=== FILE: serializer.dfy ===
/**
 The tagged encoding of event records used both for the snapshot file and for
 the upload body (Writer.java, `toJSONObject`, `fromJSONObject`,
 `serializeEvents` and the two date helpers).
 */
module Serializer {
  import opened Wrappers
  import opened Json
  import opened Events

  const TypeKey: string := "$type"
  const DateKey: string := "$date"
  const DateTag: string := "date"
  const EventsKey: string := "events"

  /** The four `instanceof` branches of the encoder; any other value, null included, is left out. */
  predicate Serializable(v: Value)
  {
    v.Bool? || v.Num? || v.Str? || v.Time?
  }

  /** `(double) value` on a Number that is not a Double throws ClassCastException. */
  predicate FailsDoubleCast(v: Value)
  {
    v.Num? && v.kind != DoubleBox
  }

  /** `JSONObject.put(String, double)` throws JSONException for NaN and the infinities. */
  predicate NotFinite(v: Value)
  {
    v.Num? && v.amount.NonFinite?
  }

  /** A value on which `toJSONObject` throws. */
  predicate EncodeFails(v: Value)
  {
    FailsDoubleCast(v) || NotFinite(v)
  }

  predicate Encodable(e: Event)
  {
    forall k :: k in e ==> !EncodeFails(e[k])
  }

  predicate AllEncodable(q: seq<Event>)
  {
    forall i :: 0 <= i < |q| ==> Encodable(q[i])
  }

  /** The part of a record that the encoder writes out. */
  function Kept(e: Event): (r: Event)
    ensures r.Keys <= e.Keys
    ensures forall k :: k in r ==> Serializable(r[k]) && r[k] == e[k]
    ensures forall k :: k in e && Serializable(e[k]) ==> k in r
  {
    map k | k in e && Serializable(e[k]) :: e[k]
  }

  /** `{"$type": "date", "$date": format(d)}`. */
  function SerializeDate(d: Date, df: DateFormat): (j: JsonValue)
    ensures j.JObject? && j.fields.Keys == {TypeKey, DateKey}
    ensures j.fields[TypeKey] == JStr(DateTag) && j.fields[DateKey] == JStr(df.format(d))
  {
    JObject(map[TypeKey := JStr(DateTag), DateKey := JStr(df.format(d))])
  }

  /** Recognises a tagged date; every other object shape yields `None`. */
  function ParseDate(o: JsonObject, df: DateFormat): (r: Option<Date>)
    ensures r.Some? ==> TypeKey in o && o[TypeKey] == JStr(DateTag) && DateKey in o && o[DateKey].JStr?
    ensures TypeKey in o && o[TypeKey] == JStr(DateTag) && DateKey in o && o[DateKey].JStr? ==>
      r == df.parse(o[DateKey].s)
  {
    if TypeKey in o && o[TypeKey] == JStr(DateTag) && DateKey in o && o[DateKey].JStr? then
      df.parse(o[DateKey].s)
    else
      None
  }

  lemma DateRoundTrip(d: Date, df: DateFormat)
    requires ParsesBack(df)
    ensures SerializeDate(d, df).JObject?
    ensures ParseDate(SerializeDate(d, df).fields, df) == Some(d)
  {

  }

  function EncodeValue(v: Value, df: DateFormat): (j: JsonValue)
    requires Serializable(v) && !EncodeFails(v)
    ensures v.Bool? ==> j == JBool(v.b)
    ensures v.Num? ==> j == JNum(v.amount.n)
    ensures v.Str? ==> j == JStr(v.s)
    ensures v.Time? ==> j == SerializeDate(v.date, df)
  {
    match v
    case Bool(b) => JBool(b)
    case Num(_, a) => JNum(a.n)
    case Str(s) => JStr(s)
    case Time(d) => SerializeDate(d, df)
  }

  /**
   `None` models the exception thrown for a number that is not a Double
   (ClassCastException) or not finite (JSONException).
   */
  function EncodeEvent(e: Event, df: DateFormat): (r: Option<JsonObject>)
    ensures r.Some? <==> Encodable(e)
    ensures r.Some? ==> r.value.Keys == Kept(e).Keys
    ensures r.Some? ==> forall k :: k in r.value ==> r.value[k] == EncodeValue(e[k], df)
  {
    if Encodable(e) then
      var kept := Kept(e);
      Some(map k | k in kept :: EncodeValue(kept[k], df))
    else
      None
  }

  function DecodeValue(j: JsonValue, df: DateFormat): (r: Option<Value>)
    ensures r.Some? ==> Canonical(r.value)
    ensures j.JBool? || j.JNum? || j.JStr? ==> r.Some?
    ensures j.JNull? || j.JArray? ==> r.None?
    ensures j.JBool? ==> r == Some(Bool(j.b))
    ensures j.JNum? ==> r == Some(Num(DoubleBox, Finite(j.n)))
    ensures j.JStr? ==> r == Some(Str(j.s))
    ensures j.JObject? ==> (r.Some? <==> ParseDate(j.fields, df).Some?)
    ensures j.JObject? && r.Some? ==> r.value == Time(ParseDate(j.fields, df).value)
  {
    match j
    case JBool(b) => Some(Bool(b))
    case JNum(n) => Some(Num(DoubleBox, Finite(n)))
    case JStr(s) => Some(Str(s))
    case JObject(fields) =>
      (match ParseDate(fields, df)
       case Some(d) => Some(Time(d))
       case None => None)
    case _ => None
  }

  /** Unrecognised attribute shapes drop that attribute, never the whole record. */
  function DecodeEvent(o: JsonObject, df: DateFormat): (e: Event)
    ensures e.Keys <= o.Keys
    ensures CanonicalEvent(e)
    ensures forall k :: k in o && (o[k].JBool? || o[k].JNum? || o[k].JStr?) ==> k in e
    ensures forall k :: k in o ==> (k in e <==> DecodeValue(o[k], df).Some?)
    ensures forall k :: k in e ==> Some(e[k]) == DecodeValue(o[k], df)
    ensures forall k :: k in o && o[k].JBool? ==> e[k] == Bool(o[k].b)
    ensures forall k :: k in o && o[k].JNum? ==> e[k] == Num(DoubleBox, Finite(o[k].n))
    ensures forall k :: k in o && o[k].JStr? ==> e[k] == Str(o[k].s)
  {
    map k | k in o && DecodeValue(o[k], df).Some? :: DecodeValue(o[k], df).value
  }

  lemma ValueRoundTrip(v: Value, df: DateFormat)
    requires ParsesBack(df)
    requires Serializable(v) && !EncodeFails(v)
    ensures DecodeValue(EncodeValue(v, df), df) == Some(v)
  {

  }

  /** Decoding an encoded record gives back every attribute the encoder wrote. */
  lemma EventRoundTrip(e: Event, df: DateFormat)
    requires ParsesBack(df)
    requires Encodable(e)
    ensures EncodeEvent(e, df).Some?
    ensures DecodeEvent(EncodeEvent(e, df).value, df) == Kept(e)
  {
    var o := EncodeEvent(e, df).value;
    var d := DecodeEvent(o, df);
    forall k | k in o ensures DecodeValue(o[k], df) == Some(Kept(e)[k]) {
      ValueRoundTrip(e[k], df);
    }
    assert d == Kept(e);
  }

  /** `decode(encode(e)) == e` for records holding only booleans, finite doubles, strings and dates. */
  lemma CanonicalRoundTrip(e: Event, df: DateFormat)
    requires ParsesBack(df)
    requires CanonicalEvent(e)
    ensures EncodeEvent(e, df).Some?
    ensures DecodeEvent(EncodeEvent(e, df).value, df) == e
  {
    assert Encodable(e) by {
      forall k | k in e ensures !EncodeFails(e[k]) {
        assert Canonical(e[k]);
      }
    }
    EventRoundTrip(e, df);
    assert Kept(e) == e by {
      forall k | k in e ensures k in Kept(e) {
        assert Canonical(e[k]);
      }
    }
  }

  /** The array elements `serializeEvents` writes, one object per record, in order. */
  function EncodeAll(es: seq<Event>, df: DateFormat): (r: Option<seq<JsonValue>>)
    ensures r.Some? <==> AllEncodable(es)
    ensures r.Some? ==> |r.value| == |es|
    ensures r.Some? ==> forall i :: 0 <= i < |es| ==>
      EncodeEvent(es[i], df).Some? && r.value[i] == JObject(EncodeEvent(es[i], df).value)
  {
    if |es| == 0 then
      Some([])
    else
      match (EncodeEvent(es[0], df), EncodeAll(es[1..], df))
      case (Some(o), Some(rest)) => Some([JObject(o)] + rest)
      case _ => None
  }

  function SerializeEvents(es: seq<Event>, df: DateFormat): (r: Option<JsonObject>)
    ensures r.Some? <==> AllEncodable(es)
    ensures r.Some? ==> r.value.Keys == {EventsKey}
    ensures r.Some? ==> r.value[EventsKey].JArray? && |r.value[EventsKey].items| == |es|
    ensures r.Some? ==> r.value[EventsKey] == JArray(EncodeAll(es, df).value)
  {
    match EncodeAll(es, df)
    case Some(items) => Some(map[EventsKey := JArray(items)])
    case None => None
  }

  datatype Decoded = Decoded(events: seq<Event>, complete: bool)

  /**
   The restore loop: decodes array elements in order and stops at the first
   element that is not an object (`getJSONObject` throws), keeping what it has.
   */
  function DecodePrefix(items: seq<JsonValue>, df: DateFormat): (r: Decoded)
    ensures |r.events| <= |items|
    ensures r.complete <==> (forall i :: 0 <= i < |items| ==> items[i].JObject?)
    ensures r.complete ==> |r.events| == |items|
    ensures !r.complete ==> |r.events| < |items| && !items[|r.events|].JObject?
    ensures forall i :: 0 <= i < |r.events| ==>
      items[i].JObject? && r.events[i] == DecodeEvent(items[i].fields, df)
  {
    if |items| == 0 then
      Decoded([], true)
    else
      match items[0]
      case JObject(fields) =>
        var rest := DecodePrefix(items[1..], df);
        Decoded([DecodeEvent(fields, df)] + rest.events, rest.complete)
      case _ => Decoded([], false)
  }

  function KeptAll(es: seq<Event>): (r: seq<Event>)
    ensures |r| == |es|
    ensures forall i :: 0 <= i < |es| ==> r[i] == Kept(es[i])
  {
    seq(|es|, i requires 0 <= i < |es| => Kept(es[i]))
  }

  /** The records of a serialised queue read back complete and in order. */
  lemma SerializeDecode(es: seq<Event>, df: DateFormat)
    requires ParsesBack(df)
    requires AllEncodable(es)
    ensures SerializeEvents(es, df).Some?
    ensures DecodePrefix(SerializeEvents(es, df).value[EventsKey].items, df) == Decoded(KeptAll(es), true)
  {
    var items := SerializeEvents(es, df).value[EventsKey].items;
    var r := DecodePrefix(items, df);
    assert items == EncodeAll(es, df).value;
    forall i | 0 <= i < |es|
      ensures r.events[i] == Kept(es[i])
    {
      EventRoundTrip(es[i], df);
    }
  }

  lemma SerializeDecodeCanonical(es: seq<Event>, df: DateFormat)
    requires ParsesBack(df)
    requires AllCanonical(es)
    ensures AllEncodable(es)
    ensures DecodePrefix(SerializeEvents(es, df).value[EventsKey].items, df) == Decoded(es, true)
  {
    assert AllEncodable(es) by {
      forall i | 0 <= i < |es| ensures Encodable(es[i]) {
        assert CanonicalEvent(es[i]);
      }
    }
    SerializeDecode(es, df);
    forall i | 0 <= i < |es| ensures Kept(es[i]) == es[i] {
      assert CanonicalEvent(es[i]);
    }
  }
}

=== FILE: strings.dfy ===
/** Splitting a string at a separator character, and its inverse `TextUtils.join`. */
module Strings {

  /** Every piece between separators, empty pieces included; a string without the separator is one piece. */
  function Split(s: string, sep: char): (parts: seq<string>)
    ensures |parts| >= 1
    ensures forall i :: 0 <= i < |parts| ==> sep !in parts[i]
    decreases |s|
  {
    if |s| == 0 then
      [""]
    else
      var rest := Split(s[1..], sep);
      if s[0] == sep then [""] + rest
      else [[s[0]] + rest[0]] + rest[1..]
  }

  /** `TextUtils.join`: the parts with one separator between neighbours. */
  function Join(parts: seq<string>, sep: char): string
    decreases |parts|
  {
    if |parts| == 0 then ""
    else if |parts| == 1 then parts[0]
    else parts[0] + [sep] + Join(parts[1..], sep)
  }

  lemma {:induction false} SplitWithoutSeparator(s: string, sep: char)
    requires sep !in s
    ensures Split(s, sep) == [s]
    decreases |s|
  {
    if |s| > 0 {
      SplitWithoutSeparator(s[1..], sep);
      assert [s[0]] + s[1..] == s;
    }
  }

  lemma {:induction false} SplitAtSeparator(a: string, b: string, sep: char)
    requires sep !in a
    ensures Split(a + [sep] + b, sep) == [a] + Split(b, sep)
    decreases |a|
  {
    var s := a + [sep] + b;
    if |a| == 0 {
      assert s[1..] == b;
    } else {
      assert s[1..] == a[1..] + [sep] + b;
      SplitAtSeparator(a[1..], b, sep);
      assert [a[0]] + a[1..] == a;
    }
  }

  /** Joining parts free of the separator and splitting again gives the parts back. */
  lemma {:induction false} SplitJoin(parts: seq<string>, sep: char)
    requires |parts| >= 1
    requires forall i :: 0 <= i < |parts| ==> sep !in parts[i]
    ensures Split(Join(parts, sep), sep) == parts
    decreases |parts|
  {
    if |parts| == 1 {
      SplitWithoutSeparator(parts[0], sep);
    } else {
      SplitAtSeparator(parts[0], Join(parts[1..], sep), sep);
      SplitJoin(parts[1..], sep);
      assert [parts[0]] + parts[1..] == parts;
    }
  }
}

=== FILE: tracker.dfy ===
/**
 Event assembly in the public tracking call: sanitise the caller's attributes,
 merge them under the environment attributes and the reserved fields, and hand
 the record to the writer. The environment map, the current user and the clock
 are inputs.
 */
module Tracker {
  import opened Wrappers
  import opened Events
  import opened Strings
  import opened Serializer
  import LocaleTags

  const EventRawKey: string := "_event_raw"
  const UserIdKey: string := "_user_id"
  const TrackedAtKey: string := "_tracked_at"
  const DeviceLocalesKey: string := "_device_locales"
  const DeviceLocaleKey: string := "_device_locale"
  const TagListSeparator: char := ','

  /** The fields the tracker writes last, so that they override anything else. */
  const ReservedKeys: set<string> := {EventRawKey, UserIdKey, TrackedAtKey}

  datatype User = User(id: string)

  /** The user-supplied value types the tracker accepts: Boolean, Number and String. */
  predicate Accepted(v: Value)
  {
    v.Bool? || v.Num? || v.Str?
  }

  /** `Number.doubleValue()`; other values are unchanged. */
  function AsDouble(v: Value): Value
  {
    if v.Num? then Num(DoubleBox, v.amount) else v
  }

  /** Null attributes give null; otherwise only accepted values are kept, numbers as doubles. */
  function Sanitize(attributes: Option<Event>): (r: Option<Event>)
    ensures r.None? <==> attributes.None?
    ensures r.Some? ==> r.value.Keys <= attributes.value.Keys
    ensures r.Some? ==> forall k :: k in attributes.value ==> (k in r.value <==> Accepted(attributes.value[k]))
    ensures r.Some? ==> forall k :: k in r.value ==>
      && (r.value[k].Bool? || r.value[k].Str? || (r.value[k].Num? && r.value[k].kind == DoubleBox))
      && (attributes.value[k].Num? ==> r.value[k] == Num(DoubleBox, attributes.value[k].amount))
      && (!attributes.value[k].Num? ==> r.value[k] == attributes.value[k])
  {
    match attributes
    case None => None
    case Some(m) => Some(map k | k in m && Accepted(m[k]) :: AsDouble(m[k]))
  }

  /** The id of the logged-in user, or null when there is none. */
  function CurrentUserId(user: Option<User>): (v: Value)
    ensures v.Null? <==> user.None?
    ensures user.Some? ==> v == Str(user.value.id)
  {
    match user
    case Some(u) => Str(u.id)
    case None => Null
  }

  /**
   `None` is "no write" (a null event name). The record merges sanitised user
   attributes, then the environment, then the reserved fields, later ones winning.
   */
  function Track(name: Option<string>, attributes: Option<Event>, environment: Event,
                 user: Option<User>, now: Date): (r: Option<Event>)
    ensures r.None? <==> name.None?
    ensures r.Some? ==> ReservedKeys <= r.value.Keys
    ensures r.Some? ==> r.value[EventRawKey] == Str(name.value)
    ensures r.Some? ==> r.value[UserIdKey] == CurrentUserId(user)
    ensures r.Some? ==> r.value[TrackedAtKey] == Time(now)
    ensures r.Some? && attributes.None? ==> r.value.Keys == environment.Keys + ReservedKeys
    ensures r.Some? && attributes.Some? ==>
      r.value.Keys == Sanitize(attributes).value.Keys + environment.Keys + ReservedKeys
    ensures r.Some? ==> forall k :: k in environment && k !in ReservedKeys ==> r.value[k] == environment[k]
    ensures r.Some? ==> forall k :: k in r.value && k !in environment && k !in ReservedKeys ==>
      Sanitize(attributes).Some? && k in Sanitize(attributes).value && r.value[k] == Sanitize(attributes).value[k]
  {
    match name
    case None => None
    case Some(eventName) =>
      var userAttributes := match Sanitize(attributes) case Some(m) => m case None => map[];
      Some((userAttributes + environment)
             [EventRawKey := Str(eventName)]
             [UserIdKey := CurrentUserId(user)]
             [TrackedAtKey := Time(now)])
  }

  /** `formatBCP47Tags`: the locale tags joined with commas, in list order. */
  function FormatTags(tags: seq<string>): (s: string)
    ensures |tags| == 0 ==> s == ""
    ensures |tags| >= 1 && (forall i :: 0 <= i < |tags| ==> TagListSeparator !in tags[i]) ==>
      Split(s, TagListSeparator) == tags
  {
    var s := Join(tags, TagListSeparator);
    if |tags| >= 1 && (forall i :: 0 <= i < |tags| ==> TagListSeparator !in tags[i]) then
      SplitJoin(tags, TagListSeparator);
      s
    else
      s
  }

  /** The two locale entries of the environment attributes. */
  function LocaleAttributes(tags: seq<string>): (m: Event)
    ensures m.Keys == {DeviceLocalesKey, DeviceLocaleKey}
    ensures |tags| == 0 ==> m[DeviceLocalesKey] == Str("") && m[DeviceLocaleKey] == Null
  {
    map[DeviceLocalesKey := Str(FormatTags(tags)),
        DeviceLocaleKey := match LocaleTags.DeviceLocale(tags) case Some(t) => Str(t) case None => Null]
  }

  /**
   The `_device_locales` string splits back into the tag list, in order, and
   `_device_locale` is its first element.
   */
  lemma LocaleAttributesRoundTrip(tags: seq<string>)
    requires |tags| >= 1
    requires forall i :: 0 <= i < |tags| ==> TagListSeparator !in tags[i]
    ensures LocaleAttributes(tags)[DeviceLocalesKey] == Str(FormatTags(tags))
    ensures Split(FormatTags(tags), TagListSeparator) == tags
    ensures LocaleAttributes(tags)[DeviceLocaleKey] == Str(Split(FormatTags(tags), TagListSeparator)[0])
  {
  }

  /** Compat-built tag lists satisfy the split condition above. */
  lemma CompatTagsSplit(triples: seq<LocaleTags.Subtags>)
    requires |triples| >= 1
    ensures var tags := seq(|triples|, i requires 0 <= i < |triples| =>
                            LocaleTags.ToLanguageTag(triples[i].language, triples[i].region, triples[i].variant));
            Split(FormatTags(tags), TagListSeparator) == tags
  {
    var tags := seq(|triples|, i requires 0 <= i < |triples| =>
                    LocaleTags.ToLanguageTag(triples[i].language, triples[i].region, triples[i].variant));
    forall i | 0 <= i < |tags| ensures TagListSeparator !in tags[i] {
      LocaleTags.ToLanguageTagHasNoComma(triples[i].language, triples[i].region, triples[i].variant);
    }
    SplitJoin(tags, TagListSeparator);
  }

  /** Environment attributes are strings, or null where the platform gave none. */
  predicate EnvironmentShaped(environment: Event)
  {
    forall k :: k in environment ==> environment[k].Str? || environment[k].Null?
  }

  /** No caller attribute is a NaN or infinite number. */
  predicate FiniteNumbers(attributes: Option<Event>)
  {
    attributes.Some? ==> forall k :: k in attributes.value ==> !NotFinite(attributes.value[k])
  }

  /**
   A tracked record whose caller attributes are finite serialises (its numbers
   are doubles), and what comes back from a snapshot is the record without its
   null entries: in particular `_user_id` survives a restart only when a user
   was logged in.
   */
  lemma TrackedEventRoundTrip(name: string, attributes: Option<Event>, environment: Event,
                              user: Option<User>, now: Date, df: DateFormat)
    requires ParsesBack(df)
    requires EnvironmentShaped(environment)
    requires FiniteNumbers(attributes)
    ensures var e := Track(Some(name), attributes, environment, user, now).value;
            && EncodeEvent(e, df).Some?
            && DecodeEvent(EncodeEvent(e, df).value, df) == Kept(e)
            && (UserIdKey in Kept(e) <==> user.Some?)
            && EventRawKey in Kept(e) && TrackedAtKey in Kept(e)
  {
    var e := Track(Some(name), attributes, environment, user, now).value;
    assert Encodable(e) by {
      forall k | k in e ensures !EncodeFails(e[k]) {
        if k !in ReservedKeys && k !in environment {
          assert e[k] == Sanitize(attributes).value[k];
        }
      }
    }
    EventRoundTrip(e, df);
  }

  /**
   Sanitising keeps NaN and infinite numbers, so a record carrying one (under a
   key the environment and the reserved fields do not override) cannot be
   serialised at all.
   */
  lemma NonFiniteAttributeBlocksEncoding(name: string, attributes: Option<Event>, environment: Event,
                                         user: Option<User>, now: Date, key: string)
    requires attributes.Some? && key in attributes.value
    requires attributes.value[key].Num? && attributes.value[key].amount.NonFinite?
    requires key !in environment && key !in ReservedKeys
    ensures !Encodable(Track(Some(name), attributes, environment, user, now).value)
  {
  }
}

=== FILE: wrappers.dfy ===
/** An optional value: the model's stand-in for a Java reference that may be null. */
module Wrappers {

  datatype Option<+T> = None | Some(value: T)
}

=== FILE: writer.dfy ===
/**
 The writer as a sequential state machine. The single-thread executor runs every
 work item to completion in submission order, so a work item is a function from
 one state to the next. Disk and network outcomes are boolean oracles.
 */
module Writer {
  import opened Wrappers
  import opened Json
  import opened Events
  import opened Serializer
  import opened EventQueue

  /**
   The snapshot file as a reader sees it. Atomic replacement means it is only
   ever absent, a whole earlier snapshot, or unreadable (bytes that are not a JSON
   object, or a read error).
   */
  datatype Disk = NoFile | Unreadable | Stored(doc: JsonObject)

  /** In-memory queue and the last snapshot written. */
  datatype State = State(events: seq<Event>, disk: Disk)

  /** The queue after a restore, and whether the restore logged an error. */
  datatype Restored = Restored(events: seq<Event>, logged: bool)

  /** After a flush: the queue, the body POSTed if an upload was attempted, and whether an exception left `flush`. */
  datatype Flushed = Flushed(events: seq<Event>, sent: Option<JsonObject>, thrown: bool)

  /** After one work item: the new state and the body it uploaded, if any. */
  datatype Step = Step(state: State, sent: Option<JsonObject>)

  datatype Command =
    | Write(event: Event, persistOk: bool, uploadOk: bool)
    | TimerTick(uploadOk: bool)

  datatype Trace = Trace(state: State, sent: seq<JsonObject>)

  /** The body of an upload that holds between one and `UploadLimit` records. */
  predicate ProperBatch(body: JsonObject)
  {
    EventsKey in body && body[EventsKey].JArray? && 0 < |body[EventsKey].items| <= UploadLimit
  }

  /**
   Appends the snapshot's records to `q` in file order. A missing file is silent;
   any other failure is logged and keeps the records appended before it.
   */
  function DoRestore(q: seq<Event>, disk: Disk, df: DateFormat): (r: Restored)
    ensures |q| <= |r.events| && r.events[..|q|] == q
    ensures disk.NoFile? ==> r == Restored(q, false)
    ensures disk.Unreadable? ==> r == Restored(q, true)
    ensures disk.Stored? && !(EventsKey in disk.doc && disk.doc[EventsKey].JArray?) ==> r == Restored(q, true)
    ensures disk.Stored? && EventsKey in disk.doc && disk.doc[EventsKey].JArray? ==>
      forall i :: |q| <= i < |r.events| ==>
        var j := i - |q|;
        j < |disk.doc[EventsKey].items| && disk.doc[EventsKey].items[j].JObject?
        && r.events[i] == DecodeEvent(disk.doc[EventsKey].items[j].fields, df)
    ensures !r.logged ==> disk.NoFile? || (disk.Stored? && EventsKey in disk.doc && disk.doc[EventsKey].JArray?
                                           && |r.events| == |q| + |disk.doc[EventsKey].items|)
    ensures disk.Stored? && EventsKey in disk.doc && disk.doc[EventsKey].JArray? ==>
      var items := disk.doc[EventsKey].items;
      && (r.logged <==> exists j :: 0 <= j < |items| && !items[j].JObject?)
      && (r.logged ==> |r.events| - |q| < |items| && !items[|r.events| - |q|].JObject?)
  {
    match disk
    case NoFile => Restored(q, false)
    case Unreadable => Restored(q, true)
    case Stored(doc) =>
      if EventsKey in doc && doc[EventsKey].JArray? then
        var d := DecodePrefix(doc[EventsKey].items, df);
        Restored(q + d.events, !d.complete)
      else
        Restored(q, true)
  }

  /** A malformed element keeps every record before it: the restore is partial, not empty. */
  lemma RestoreKeepsPrefix(q: seq<Event>, doc: JsonObject, i: nat, df: DateFormat)
    requires EventsKey in doc && doc[EventsKey].JArray?
    requires i < |doc[EventsKey].items|
    requires forall j :: 0 <= j < i ==> doc[EventsKey].items[j].JObject?
    requires !doc[EventsKey].items[i].JObject?
    ensures DoRestore(q, Stored(doc), df).logged
    ensures DoRestore(q, Stored(doc), df).events
         == q + seq(i, j requires 0 <= j < i => DecodeEvent(doc[EventsKey].items[j].fields, df))
  {

  }

  /** `None` is an exception: a record that cannot be serialised, or a failed atomic write. */
  function Persist(q: seq<Event>, persistOk: bool, df: DateFormat): (r: Option<Disk>)
    ensures r.Some? <==> persistOk && AllEncodable(q)
    ensures r.Some? ==> r.value.Stored? && Some(r.value.doc) == SerializeEvents(q, df)
  {
    match SerializeEvents(q, df)
    case None => None
    case Some(doc) => if persistOk then Some(Stored(doc)) else None
  }

  /** Crash recovery: a restart that restores a freshly written snapshot gets the queue back. */
  lemma PersistRestore(q: seq<Event>, df: DateFormat)
    requires ParsesBack(df)
    requires AllCanonical(q)
    ensures Persist(q, true, df).Some?
    ensures DoRestore([], Persist(q, true, df).value, df) == Restored(q, false)
  {
    SerializeDecodeCanonical(q, df);
  }

  /**
   Crash recovery for any serialisable queue: the restored records are the queue's,
   in order, each without the entries the encoder omits (nulls, for instance).
   */
  lemma PersistRestoreKept(q: seq<Event>, df: DateFormat)
    requires ParsesBack(df)
    requires AllEncodable(q)
    ensures Persist(q, true, df).Some?
    ensures DoRestore([], Persist(q, true, df).value, df) == Restored(KeptAll(q), false)
  {
    SerializeDecode(q, df);
  }

  /**
   Uploads the oldest `min(|q|, UploadLimit)` records and, only when the upload
   returns normally, drops exactly those from the queue.
   */
  function Flush(q: seq<Event>, uploadOk: bool, df: DateFormat): (r: Flushed)
    ensures r.sent.Some? <==> AllEncodable(Batch(q))
    ensures r.sent.Some? ==> r.sent == SerializeEvents(Batch(q), df)
    ensures r.thrown <==> !(uploadOk && AllEncodable(Batch(q)))
    ensures r.thrown ==> r.events == q
    ensures !r.thrown ==> q == Batch(q) + r.events
  {
    var batch := Batch(q);
    match SerializeEvents(batch, df)
    case None => Flushed(q, None, true)
    case Some(body) =>
      if uploadOk then Flushed(q[|batch|..], Some(body), false)
      else Flushed(q, Some(body), true)
  }

  /** What was uploaded is exactly what a successful flush removed from the head of the queue. */
  lemma FlushRemovesSentPrefix(q: seq<Event>, uploadOk: bool, df: DateFormat)
    requires ParsesBack(df)
    requires AllCanonical(q)
    ensures Flush(q, uploadOk, df).sent.Some?
    ensures var r := Flush(q, uploadOk, df);
            var sent := DecodePrefix(r.sent.value[EventsKey].items, df);
            sent == Decoded(Batch(q), true) && (uploadOk ==> q == sent.events + r.events)
  {
    var b := Batch(q);
    assert AllCanonical(b) by {
      forall i | 0 <= i < |b| ensures CanonicalEvent(b[i]) {
        assert b[i] == q[i];
      }
    }
    SerializeDecodeCanonical(b, df);
  }

  /** For any serialisable batch, the upload decodes to the batch's kept entries, in order. */
  lemma FlushSendsKeptBatch(q: seq<Event>, uploadOk: bool, df: DateFormat)
    requires ParsesBack(df)
    requires AllEncodable(Batch(q))
    ensures Flush(q, uploadOk, df).sent.Some?
    ensures var r := Flush(q, uploadOk, df);
            DecodePrefix(r.sent.value[EventsKey].items, df) == Decoded(KeptAll(Batch(q)), true)
            && (uploadOk ==> q == Batch(q) + r.events)
  {
    SerializeDecode(Batch(q), df);
  }

  /** The threshold trigger after a write: errors propagate to the caller. */
  function FlushIfEnough(q: seq<Event>, uploadOk: bool, df: DateFormat): (r: Flushed)
    ensures r.sent.Some? ==> |q| >= FlushLimit
    ensures |q| < FlushLimit ==> r == Flushed(q, None, false)
    ensures |q| >= FlushLimit ==> r == Flush(q, uploadOk, df)
  {
    if |q| < FlushLimit then Flushed(q, None, false) else Flush(q, uploadOk, df)
  }

  /** The startup and timer trigger: any non-empty queue is flushed, errors are swallowed. */
  function FlushIfHasSomeEvents(q: seq<Event>, uploadOk: bool, df: DateFormat): (r: Flushed)
    ensures !r.thrown
    ensures r.sent.Some? ==> |q| > 0 && ProperBatch(r.sent.value)
    ensures |q| == 0 ==> r.events == q && r.sent.None?
    ensures |q| > 0 ==> r.events == Flush(q, uploadOk, df).events && r.sent == Flush(q, uploadOk, df).sent
    ensures IsSuffix(r.events, q)
    ensures r.events == q || (uploadOk && r.sent.Some? && q == Batch(q) + r.events)
  {
    if |q| <= 0 then
      Flushed(q, None, false)
    else
      var f := Flush(q, uploadOk, df);
      Flushed(f.events, f.sent, false)
  }

  /**
   A producer write: add and evict, persist the whole queue, then flush if the
   threshold is reached. A failed persist keeps the record in memory and skips the
   flush; a successful flush does not re-persist.
   */
  function DoWrite(s: State, e: Event, persistOk: bool, uploadOk: bool, df: DateFormat): (r: Step)
    ensures var q := AddAndDrop(s.events, e);
            if persistOk && AllEncodable(q) then
              && r.state.disk == Stored(SerializeEvents(q, df).value)
              && r.state.events == FlushIfEnough(q, uploadOk, df).events
              && r.sent == FlushIfEnough(q, uploadOk, df).sent
            else
              r == Step(State(q, s.disk), None)
    ensures |r.state.events| <= MaxLength
    ensures r.sent.Some? ==> ProperBatch(r.sent.value) && |AddAndDrop(s.events, e)| >= FlushLimit
  {
    var q := AddAndDrop(s.events, e);
    match Persist(q, persistOk, df)
    case None => Step(State(q, s.disk), None)
    case Some(disk) =>
      var f := FlushIfEnough(q, uploadOk, df);
      Step(State(f.events, disk), f.sent)
  }

  /** The snapshot left by a write still lists the records a flush in the same write uploaded. */
  lemma WriteSnapshotOutlivesFlush(s: State, e: Event, uploadOk: bool, df: DateFormat)
    requires ParsesBack(df)
    requires AllCanonical(s.events) && CanonicalEvent(e)
    ensures var r := DoWrite(s, e, true, uploadOk, df);
            DoRestore([], r.state.disk, df).events == AddAndDrop(s.events, e)
  {
    var q := AddAndDrop(s.events, e);
    assert AllCanonical(q) by {
      forall i | 0 <= i < |q| ensures CanonicalEvent(q[i]) {
        assert q[i] == (s.events + [e])[|s.events| + 1 - |q| + i];
      }
    }
    PersistRestore(q, df);
  }

  /** For any serialisable post-drop queue, the write's snapshot restores to its kept entries. */
  lemma WriteSnapshotRestoresKept(s: State, e: Event, uploadOk: bool, df: DateFormat)
    requires ParsesBack(df)
    requires AllEncodable(AddAndDrop(s.events, e))
    ensures var r := DoWrite(s, e, true, uploadOk, df);
            DoRestore([], r.state.disk, df) == Restored(KeptAll(AddAndDrop(s.events, e)), false)
  {
    PersistRestoreKept(AddAndDrop(s.events, e), df);
  }

  /** With the snapshot written, reaching the threshold uploads before the next work item. */
  lemma ThresholdTriggersUpload(s: State, e: Event, uploadOk: bool, df: DateFormat)
    requires AllEncodable(s.events) && Encodable(e)
    requires |s.events| + 1 >= FlushLimit
    ensures DoWrite(s, e, true, uploadOk, df).sent.Some?
  {
    var q := AddAndDrop(s.events, e);
    assert AllEncodable(q) by {
      forall i | 0 <= i < |q| ensures Encodable(q[i]) {
        assert q[i] == (s.events + [e])[|s.events| + 1 - |q| + i];
      }
    }
    var b := Batch(q);
    assert AllEncodable(b) by {
      forall i | 0 <= i < |b| ensures Encodable(b[i]) {
        assert b[i] == q[i];
      }
    }
  }

  /** The first work item: restore, then evict, then an opportunistic flush. */
  function Startup(disk: Disk, uploadOk: bool, df: DateFormat): (r: Step)
    ensures r.state.disk == disk
    ensures |r.state.events| <= MaxLength
    ensures IsSuffix(r.state.events, DoRestore([], disk, df).events)
    ensures r.sent.Some? ==> ProperBatch(r.sent.value)
    ensures r.sent.Some? ==> r.sent == SerializeEvents(Batch(DropIfNeeded(DoRestore([], disk, df).events)), df)
    ensures disk.NoFile? ==> r == Step(State([], NoFile), None)
    ensures var q := DropIfNeeded(DoRestore([], disk, df).events);
            r.state.events == q || (uploadOk && r.sent.Some? && q == Batch(q) + r.state.events)
    ensures var q := DropIfNeeded(DoRestore([], disk, df).events);
            |q| > 0 && AllEncodable(Batch(q)) ==> r.sent == SerializeEvents(Batch(q), df)
    ensures var q := DropIfNeeded(DoRestore([], disk, df).events);
            uploadOk && r.sent.Some? ==> q == Batch(q) + r.state.events
  {
    var restored := DoRestore([], disk, df);
    var q := DropIfNeeded(restored.events);
    var f := FlushIfHasSomeEvents(q, uploadOk, df);
    SuffixTransitive(f.events, q, restored.events);
    Step(State(f.events, disk), f.sent)
  }

  /** A timer tick: flush a non-empty queue; the snapshot is left alone. */
  function Tick(s: State, uploadOk: bool, df: DateFormat): (r: Step)
    ensures r.state.disk == s.disk
    ensures IsSuffix(r.state.events, s.events)
    ensures r.sent.Some? ==> ProperBatch(r.sent.value)
    ensures |s.events| == 0 ==> r == Step(s, None)
    ensures r.state.events == s.events || (uploadOk && r.sent.Some? && s.events == Batch(s.events) + r.state.events)
    ensures |s.events| > 0 && AllEncodable(Batch(s.events)) ==> r.sent == SerializeEvents(Batch(s.events), df)
    ensures uploadOk && r.sent.Some? ==> s.events == Batch(s.events) + r.state.events
  {
    var f := FlushIfHasSomeEvents(s.events, uploadOk, df);
    Step(State(f.events, s.disk), f.sent)
  }

  function Execute(s: State, c: Command, df: DateFormat): (r: Step)
    ensures |s.events| <= MaxLength ==> |r.state.events| <= MaxLength
    ensures r.sent.Some? ==> ProperBatch(r.sent.value)
    ensures c.Write? ==> var q := AddAndDrop(s.events, c.event);
            r.state.events == q || (c.uploadOk && r.sent.Some? && q == Batch(q) + r.state.events)
    ensures c.TimerTick? ==>
            r.state.events == s.events || (c.uploadOk && r.sent.Some? && s.events == Batch(s.events) + r.state.events)
    ensures c.TimerTick? ==> r.state.disk == s.disk
    ensures c.Write? && !c.persistOk ==> r == Step(State(AddAndDrop(s.events, c.event), s.disk), None)
    ensures c.Write? && r.state.disk != s.disk ==>
            r.state.disk.Stored? && Some(r.state.disk.doc) == SerializeEvents(AddAndDrop(s.events, c.event), df)
    ensures c.Write? && c.persistOk && AllEncodable(AddAndDrop(s.events, c.event)) ==>
            var q := AddAndDrop(s.events, c.event);
            && r.state.disk == Stored(SerializeEvents(q, df).value)
            && (|q| >= FlushLimit && AllEncodable(Batch(q)) ==> r.sent == SerializeEvents(Batch(q), df))
    ensures c.TimerTick? && |s.events| > 0 && AllEncodable(Batch(s.events)) ==>
            r.sent == SerializeEvents(Batch(s.events), df)
    ensures c.uploadOk && r.sent.Some? ==>
            var q := if c.Write? then AddAndDrop(s.events, c.event) else s.events;
            q == Batch(q) + r.state.events
  {
    match c
    case Write(e, persistOk, uploadOk) => DoWrite(s, e, persistOk, uploadOk, df)
    case TimerTick(uploadOk) => Tick(s, uploadOk, df)
  }

  /** Work items run one after another, each to completion, in submission order. */
  function Run(s: State, cmds: seq<Command>, df: DateFormat): (t: Trace)
    ensures |t.sent| <= |cmds|
    ensures |s.events| == 0 && (forall i :: 0 <= i < |cmds| ==> cmds[i].TimerTick?) ==> t == Trace(s, [])
    decreases |cmds|
  {
    if |cmds| == 0 then
      Trace(s, [])
    else
      var step := Execute(s, cmds[0], df);
      var rest := Run(step.state, cmds[1..], df);
      Trace(rest.state, Uploads(step) + rest.sent)
  }

  /** The bodies one work item uploaded: none or one. */
  function Uploads(step: Step): (u: seq<JsonObject>)
    ensures |u| <= 1 && (|u| == 1 <==> step.sent.Some?)
    ensures |u| == 1 ==> u[0] == step.sent.value
  {
    if step.sent.Some? then [step.sent.value] else []
  }

  /** Running `a` and then `b` is running `a + b`: the second run starts where the first stopped. */
  lemma {:induction false} RunAppend(s: State, a: seq<Command>, b: seq<Command>, df: DateFormat)
    ensures var first := Run(s, a, df);
            var second := Run(first.state, b, df);
            Run(s, a + b, df) == Trace(second.state, first.sent + second.sent)
    decreases |a|
  {
    if |a| == 0 {
      assert a + b == b;
    } else {
      var ab := a + b;
      var step := Execute(s, a[0], df);
      var first := Run(step.state, a[1..], df);
      var second := Run(first.state, b, df);
      ConsAppend(a, b);
      RunAppend(step.state, a[1..], b, df);
      AppendAssociative(Uploads(step), first.sent, second.sent);
      assert Run(s, a, df) == Trace(first.state, Uploads(step) + first.sent);
      assert Run(s, ab, df) == Trace(second.state, Uploads(step) + (first.sent + second.sent));
    }
  }

  lemma ConsAppend<T>(a: seq<T>, b: seq<T>)
    requires |a| > 0
    ensures (a + b)[0] == a[0] && (a + b)[1..] == a[1..] + b
  {
  }

  lemma AppendAssociative<T>(x: seq<T>, y: seq<T>, z: seq<T>)
    ensures x + (y + z) == (x + y) + z
  {
  }

  /** Submission order: running one more command continues from where the shorter run stopped. */
  lemma RunSnoc(s: State, cmds: seq<Command>, c: Command, df: DateFormat)
    ensures var prefix := Run(s, cmds, df);
            var last := Execute(prefix.state, c, df);
            Run(s, cmds + [c], df) == Trace(last.state, prefix.sent + Uploads(last))
  {
    var prefix := Run(s, cmds, df);
    RunAppend(s, cmds, [c], df);
    var last := Execute(prefix.state, c, df);
    assert [c][1..] == [];
    assert Run(prefix.state, [c], df) == Trace(last.state, Uploads(last) + []);
    assert Uploads(last) + [] == Uploads(last);
  }

  /** The queue bound holds after every work item of any run. */
  lemma {:induction false} RunKeepsBound(s: State, cmds: seq<Command>, df: DateFormat)
    requires |s.events| <= MaxLength
    ensures |Run(s, cmds, df).state.events| <= MaxLength
    decreases |cmds|
  {
    if |cmds| > 0 {
      RunKeepsBound(Execute(s, cmds[0], df).state, cmds[1..], df);
    }
  }

  /** No upload of any run is empty or larger than `UploadLimit` records. */
  lemma {:induction false} RunSendsProperBatches(s: State, cmds: seq<Command>, df: DateFormat)
    ensures forall i :: 0 <= i < |Run(s, cmds, df).sent| ==> ProperBatch(Run(s, cmds, df).sent[i])
    decreases |cmds|
  {
    if |cmds| > 0 {
      var step := Execute(s, cmds[0], df);
      var rest := Run(step.state, cmds[1..], df);
      RunSendsProperBatches(step.state, cmds[1..], df);
      assert Run(s, cmds, df).sent == Uploads(step) + rest.sent;
      ProperBatchesAppend(Uploads(step), rest.sent);
    }
  }

  lemma ProperBatchesAppend(x: seq<JsonObject>, y: seq<JsonObject>)
    requires forall i :: 0 <= i < |x| ==> ProperBatch(x[i])
    requires forall i :: 0 <= i < |y| ==> ProperBatch(y[i])
    ensures forall i :: 0 <= i < |x + y| ==> ProperBatch((x + y)[i])
  {
  }

  /** From startup on, every state of the writer respects the queue bound. */
  lemma StartupThenRunKeepsBound(disk: Disk, uploadOk: bool, cmds: seq<Command>, df: DateFormat)
    ensures |Run(Startup(disk, uploadOk, df).state, cmds, df).state.events| <= MaxLength
  {
    RunKeepsBound(Startup(disk, uploadOk, df).state, cmds, df);
  }

  /** The records the producer writes in a run, in submission order. */
  function Written(cmds: seq<Command>): seq<Event>
    decreases |cmds|
  {
    if |cmds| == 0 then []
    else (if cmds[0].Write? then [cmds[0].event] else []) + Written(cmds[1..])
  }

  /**
   When no upload succeeds, nothing leaves the queue but by eviction: it ends as
   every written record appended in order, each append followed by a drop.
   */
  lemma {:induction false} RunWithoutDelivery(s: State, cmds: seq<Command>, df: DateFormat)
    requires forall i :: 0 <= i < |cmds| ==> !cmds[i].uploadOk
    ensures Run(s, cmds, df).state.events == AppendAll(s.events, Written(cmds))
    decreases |cmds|
  {
    if |cmds| > 0 {
      var step := Execute(s, cmds[0], df);
      RunWithoutDelivery(step.state, cmds[1..], df);
      assert Run(s, cmds, df).state == Run(step.state, cmds[1..], df).state;
      if cmds[0].Write? {
        var w := Written(cmds);
        assert w == [cmds[0].event] + Written(cmds[1..]);
        assert w[1..] == Written(cmds[1..]);
        assert step.state.events == AddAndDrop(s.events, w[0]);
        assert AppendAll(s.events, w) == AppendAll(AddAndDrop(s.events, w[0]), w[1..]);
      } else {
        assert Written(cmds) == Written(cmds[1..]);
        assert step.state.events == s.events;
      }
    }
  }

  /** From a bounded queue, a run without delivery keeps exactly the newest `MaxLength` records. */
  lemma RunWithoutDeliveryKeepsNewest(s: State, cmds: seq<Command>, df: DateFormat)
    requires |s.events| <= MaxLength
    requires forall i :: 0 <= i < |cmds| ==> !cmds[i].uploadOk
    ensures Run(s, cmds, df).state.events == DropIfNeeded(s.events + Written(cmds))
  {
    RunWithoutDelivery(s, cmds, df);
    AppendAllKeepsNewest(s.events, Written(cmds));
  }

  /**
   A record that cannot be serialised blocks every later write: the snapshot is
   never rewritten and the threshold flush never runs, until the record is evicted.
   */
  lemma UnencodableRecordBlocksWrites(s: State, e: Event, persistOk: bool, uploadOk: bool,
                                      df: DateFormat, i: nat)
    requires i < |s.events| < MaxLength
    requires !Encodable(s.events[i])
    ensures DoWrite(s, e, persistOk, uploadOk, df) == Step(State(s.events + [e], s.disk), None)
  {
    assert AddAndDrop(s.events, e)[i] == s.events[i];
  }

  /** Among the oldest `UploadLimit` records, such a record also makes every tick a no-op. */
  lemma UnencodableRecordBlocksTicks(s: State, uploadOk: bool, df: DateFormat, i: nat)
    requires i < |s.events| && i < UploadLimit
    requires !Encodable(s.events[i])
    ensures Tick(s, uploadOk, df) == Step(s, None)
  {
    assert Batch(s.events)[i] == s.events[i];
  }
}
